=== FILE: README.md ===
# LittleChef node registry and chef-solo planning, in Dafny

LittleChef pushes Chef Solo runs to remote hosts with Fabric. Before any
command is sent, two pieces of plain logic decide what will be sent:

* the **fabfile** keeps one JSON node descriptor per host in `nodes/`,
  lists them (and derives the default host list from them), builds a fresh
  descriptor with a one-entry run list for the `recipe` and `role` tasks,
  chooses where to save it (`nodes/<nodename>.json`, or the shared scratch
  file `tmp_node.json` when a permanent descriptor exists and `save` was not
  asked for), finds the nodes carrying a recipe or role, and classifies a
  distro name for `deploy_chef`;
* **`littlechef/solo.py`** recognises the distro from the text of
  `/etc/issue` (first marker wins), dispatches the Chef installation on the
  distro type and the `gems` flag, builds the Opscode apt source line, and
  builds the text of `solo.rb`.

The model is functional. The local filesystem is a value
(`LocalFiles.FileSystem`: a map from path to contents plus the set of
directory paths); every task returns the filesystem as it stands just
before the requested sync, together with that action (`Sync(path)`,
`Abort(reason)` or `Warn(message)`), so "nothing is written before the
artifact check" and "only one path changes before the sync" are plain
postconditions. The sync itself is not modelled. JSON decoding and encoding are function-valued parameters
(`Registry.Parser`, `Fabfile.Dumper`); the one property the model needs of
them, that a saved descriptor reads back as itself, appears as a hypothesis
of the lemma that uses it. Outputs of remote commands (`hostname`,
`cat /etc/issue`, `lsb_release -cs`) and `os.listdir` are parameters too.

Modules: `Wrappers` (Option, Result), `Text` (Python's substring test,
filtering, reversal, `join`, lines), `Sorting` (Python's `sorted` on
strings), `LocalFiles` (the filesystem value), `Registry` (`_get_nodes`, host list,
`list_nodes_with_*`), `Fabfile` (`recipe`, `role`, `configure`,
`_save_config`, `_check_supported_distro`, `deploy_chef`), `Solo`.

The model follows the code as written, including where it is surprising:

* a node file is any directory entry whose name *contains* `.json`
  (`web1.json.bak` is listed), not one that ends in it;
* `isdir` is asked about the bare entry name relative to the working
  directory, not about `nodes/<name>`, so a sub-directory of `nodes/` whose
  name contains `.json` is selected, and opening it raises
  (`Registry.Load` returns `Failure(CannotOpen(...))`); because the host
  list is computed when the fabfile is loaded, that error stops the fabfile
  from loading at all, so no task runs; a directory `web1.json` next to the
  fabfile hides `nodes/web1.json`;
* `recipe` and `role` ask the host for its `hostname` before checking the
  artifact, so the check precedes every write and the sync, but not every
  remote command;
* the role artifact checked is `roles/<name>` exactly as given.

## Model

| member | source | states |
|---|---|---|
| Text.Contains | fabfile.py:34 | Python's `pat in s`: true exactly when `pat` occurs at some index of `s` (the empty pattern occurs everywhere) |
| Sorting.Sort | fabfile.py:34 | `sorted()` yields an ascending (character-code lexicographic) permutation of its input |
| Sorting.SortedUnique | fabfile.py:34 | two ascending lists holding the same names are equal, so the processing order is fully determined |
| Registry.Select | fabfile.py:34 | an entry is selected iff its name contains `.json` and `isdir` of the bare name is false; each selected name is kept as often as listed |
| Registry.Load | fabfile.py:35-40 | the listing succeeds iff every selected file can be opened; otherwise it fails at the first one that cannot; each file contributes exactly one node or one warning |
| Registry.LoadMatchesFiles | fabfile.py:35-40 | a successful load lists one node per decodable file, and the i-th node is the decoded contents of the i-th decodable file |
| Registry.LoadWarnings | fabfile.py:36-39 | a successful load warns, in order, about exactly the files that do not decode |
| Registry.GetNodes | fabfile.py:32-40 | `_get_nodes` fails iff some selected file cannot be opened, and then names the unopenable selected file that comes first in ascending name order (the one the sorted loop reaches first); nodes plus warnings number the selected entries |
| Registry.GetNodesOrder | fabfile.py:32-40 | the listed nodes come one per decodable selected file, in ascending file-name order |
| Registry.GetNodesWarnings | fabfile.py:34-39 | a listing warns about exactly the selected files that do not decode, in ascending file-name order |
| Registry.GetNodesIgnoresListingOrder | fabfile.py:34 | the listing does not depend on the order `os.listdir` reports the entries in |
| Registry.Hosts | fabfile.py:42 | the default host list is the `nodeid` of each listed node, same length, same order, and exists exactly when the listing succeeds |
| Registry.HostsFromNodeFiles | fabfile.py:34-42 | the i-th host is the `nodeid` written in the i-th decodable selected node file, in ascending file-name order |
| Registry.EntryRoundTrip | fabfile.py:65 | a `recipe[<name>]` / `role[<name>]` entry reads back as the target it was written from |
| Registry.EntryInjective | fabfile.py:104 | two run-list entries are equal iff they name the same recipe or the same role; a recipe entry never equals a role entry |
| Registry.NodesWith | fabfile.py:105 | a node is selected iff the queried entry is an element of its run list, and each selected node is kept exactly as many times as it was listed |
| Registry.ListNodesWith | fabfile.py:100-114 | `list_nodes_with_recipe` / `list_nodes_with_role` select exactly the listed nodes whose run list holds `recipe[r]` / `role[r]`, as the run-list selection of the listing, and fail exactly when the listing fails |
| Registry.NodesWithKeepsOrder | fabfile.py:103-106 | selection preserves the listing order |
| Registry.WholeEntryMatch | fabfile.py:104-105 | a node with `recipe[apache2]` is not found for the recipe `apache` nor for the role `apache2` |
| LocalFiles.Write | fabfile.py:178-180 | writing fails iff the path is a directory; otherwise the path holds the new contents and no other path changes |
| Fabfile.SaveConfig | fabfile.py:174-181 | writes `dumps(data) + "\n"` to `nodes/<nodename>.json` when `save` is set or that path does not exist, else to `tmp_node.json` leaving the permanent file as it was; only that path changes; returns the path written |
| Fabfile.Descriptor | fabfile.py:63-66 | the built descriptor has the host's name, the connection address as `nodeid`, no other keys, and a one-entry run list naming exactly the target |
| Fabfile.Apply | fabfile.py:56-81 | `recipe`/`role`: a missing `cookbooks/<r>` / `roles/<r>` aborts with the filesystem unchanged; otherwise the descriptor is saved and the saved path is synced; a failed write aborts with nothing changed |
| Fabfile.Configure | fabfile.py:83-92 | `configure` syncs `nodes/<hostname>.json` iff it exists, otherwise only warns; it writes nothing before the sync |
| Fabfile.ConfigureAfterSave | fabfile.py:83-92 | after a task run with `save` succeeds, `configure` on the same host syncs `nodes/<hostname>.json`, which holds the serialised descriptor the task built |
| Fabfile.ApplyWithSaveIsIdempotent | fabfile.py:56-68 | running a task twice with `save` leaves the same files and syncs the same path as running it once |
| Fabfile.SecondRunUsesScratch | fabfile.py:174-181 | without `save`, the first task for a new host registers its descriptor permanently and a second task writes the scratch file, leaving the registered descriptor as written |
| Fabfile.AppliedNodeIsListed | fabfile.py:174-181 | after a permanent save, a listing that includes the new file holds the new descriptor and finds it by its recipe or role, given that the serialiser's output reads back |
| Fabfile.CheckSupportedDistro | fabfile.py:162-172 | `debian` exactly for lucid, karmic, jaunty, hardy, sid, squeeze, lenny; `rpm` exactly for centos, rhel; nothing (`False`) for every other name |
| Fabfile.DeployChef | fabfile.py:116-128 | an unsupported distro aborts before any installation; supported names go to apt or rpm by family, and the `wrong distro type` abort is unreachable |
| Solo.FirstMatch | littlechef/solo.py:73-97 | the verdict of the first rule whose marker occurs in the text; none iff no marker occurs |
| Solo.CheckDistro | littlechef/solo.py:64-104 | a recognised distro has type `debian`, `rpm` or `gentoo`; an unrecognised one aborts with the issue text |
| Solo.CheckDistroIsFirstMatch | littlechef/solo.py:73-103 | `check_distro` is first-match-wins over the marker table in source order, and aborts iff no marker occurs |
| Solo.CheckDistroPriority | littlechef/solo.py:73-84 | Debian 5.0 wins over every later marker; `Ubuntu` without any of the three Debian markers (5.0, 6.0, wheezy) takes the distro from `lsb_release`, in particular when the text lacks `Debian GNU/Linux` |
| Solo.LennyExample | littlechef/solo.py:73-75 | "Debian GNU/Linux 5.0" gives (debian, lenny) |
| Solo.SqueezeExample | littlechef/solo.py:76-78 | "Debian GNU/Linux 6.0" gives (debian, squeeze) |
| Solo.WheezyExample | littlechef/solo.py:79-81 | "Debian GNU/Linux wheezy" gives (debian, wheezy) |
| Solo.NotNumberedDebian | littlechef/solo.py:73-78 | a banner lacking the digits 5 and 6 matches neither the Debian 5.0 nor the Debian 6.0 marker |
| Solo.Install | littlechef/solo.py:24-39 | debian goes to the gem-apt path iff `gems == "yes"`, else to apt with the Opscode line; rpm likewise; gentoo to emerge whatever `gems`; any other type aborts |
| Solo.RecognisedDistroInstalls | littlechef/solo.py:36-39 | every result of `check_distro` is installable: `install` never aborts on it |
| Solo.VersionSuffix | littlechef/solo.py:142-145 | empty exactly when the version is 0.9, otherwise `-` followed by the version |
| Solo.AptSourceLine | littlechef/solo.py:146-148 | the line appended to `opscode.list` reads back as `deb http://apt.opscode.com/ <suite> main` with suite the distro followed by the version suffix |
| Solo.AptSourceLineSuite | littlechef/solo.py:142-148 | the apt line is `deb http://apt.opscode.com/ <suite> main` with suite `<distro>` for version 0.9 and `<distro>-<version>` otherwise |
| Solo.CookbookEntries | littlechef/solo.py:50-54 | the `cookbook_path` list has one quoted `<work path>/<p>` entry per configured path, last configured first |
| Solo.CookbookPathLine | littlechef/solo.py:52-54 | `cookbook_path [` then the entries joined by `, ` then `]`; `cookbook_path []` for no paths, a single quoted `<work path>/<p>` for one path |
| Solo.SoloRb | littlechef/solo.py:47-58 | the text is the five `solo.rb` lines each followed by a newline: cache path, the cookbook line twice, role path, data bag path |
| Solo.SoloRbHasFiveLines | littlechef/solo.py:47-58 | when no path holds a newline, the text splits back into exactly those five lines and holds exactly five newlines |

## Left out

- Every Fabric remote call (`run`, `sudo`, `put`, `append`, `upload_template`) and the upload steps `_sync_node`, `_configure_node`, `_update_cookbooks`, `_upload_and_unpack`: remote I/O over a library not modelled; a sync appears only as the action `Sync(path)`.
- The local side of every sync: `_upload_and_unpack` runs `local('tar czf temp.tar.gz …')` and then `local('rm temp.tar.gz')` (fabfile.py:221, 223), so each sync overwrites and then deletes `./temp.tar.gz` next to the fabfile. The filesystem a task returns is the one before the sync, so this change is not represented.
- Fabfile.Apply: like Fabfile.Configure and Fabfile.DeployChef, it takes no node listing and behaves as if the fabfile always loads. In the source, `_get_nodes()` runs at import time (fabfile.py:42), and no task runs at all when it fails. It fails when `Registry.Hosts` fails: a missing `nodes/`, or a selected entry that cannot be opened. It also fails when a decoded node lacks `littlechef` or `nodeid`.
- The package installation bodies (`_apt_install` and `_rpm_install` of the fabfile; `_gem_install`, `_gem_apt_install`, `_gem_rpm_install`, `_rpm_install`, `_add_rpm_repos`, `_emerge_install` of `solo.py`, and the `time.sleep`): shell commands; only the apt source line text is modelled.
- `_readconfig`, `auth.cfg` and `credentials()`: configuration loading into global state.
- JSON decoding and encoding: parameters of the model, not implementations.
- Registry.Load: a file that decodes but lacks the `littlechef` section or the `run_list` key makes the source raise later (a missing key or iterating `None`); the model's parser returns complete descriptors, so that crash is not represented, nor are the warnings printed before an unopenable file ends the listing.
- Registry.GetNodes: the directory listing is a parameter, so the case where `nodes/` does not exist is not represented; in the source `os.listdir` then raises (fabfile.py:34), and since the host list is computed at import time (fabfile.py:42) the fabfile fails to load at all.
- Fabfile.SaveConfig: `save` is a boolean here; the source tests the truthiness of whatever the task received (fabfile.py:176), and a value given on Fabric's command line arrives as a string, so `save=False` there is the non-empty string `"False"` and counts as set.
- LocalFiles.FileSystem: paths are compared as plain strings, with no normalisation of `.`, `..`, repeated or trailing `/`, so two strings that name one file on disk are different keys. The frame clauses ("only that path changes", in `LocalFiles.Write`, `Fabfile.SaveConfig`, `Fabfile.SecondRunUsesScratch` and `Fabfile.Apply`) hold only for paths that name distinct files. Hostnames and recipe or role names containing `/` or `..` (say a hostname `../tmp_node`, whose permanent file is `tmp_node.json` itself, or a recipe name `apache/`, which the source finds as the existing directory `cookbooks/apache` and the model does not) are outside the model.
- `LocalFiles.FileSystem` does not relate `files` and `dirs`: a path may be in both, and a file need not have its parent directory recorded; the operations only ask `Exists`, `IsDir` and `Read` of it, and `Write` refuses any path in `dirs`, so the looseness adds states the source cannot reach without changing any result on the states it can.
- LocalFiles.Write: the only write failure modelled is the target being a directory; a missing `nodes/` directory or a full disk are not represented.
- `_print_node`, `list_nodes` printing, and the `confirm` prompt of `deploy_chef`: console output and user interaction.
- The `node` and `debug` tasks: they only set Fabric's global host list and log level.
- Solo.CheckDistro: the abort message re-reads `/etc/issue` remotely; the model uses the first read; the printed list of supported distros is left out.
- Fabric's multi-host fan-out and the race on the shared `tmp_node.json`: concurrency belongs to Fabric.
- `cookbook_paths` is copied before it is reversed in the source; Dafny sequences are values, so the caller's list can never change and nothing needs stating.

=== FILE: fabfile.dfy ===
/** The tasks of the fabfile that decide what to do before anything is sent
    to a host: building a node descriptor for a recipe or a role, choosing
    where to save it, configuring from an existing descriptor, and deciding
    which package family a distro name belongs to. The remote calls
    themselves are represented only by the path handed to the node sync. */
module Fabfile {

  import opened Wrappers
  import opened LocalFiles
  import opened Registry
  import Text

  /** The shared scratch file used when a descriptor must not be overwritten. */
  const ScratchPath: string := "tmp_node.json"

  /** `json.dumps`, the serialiser of node descriptors. */
  type Dumper = Node -> string

  /** `nodes/<nodename>.json`. */
  function PermanentPath(nodeName: string): string
  {
    NodePath + nodeName + ".json"
  }

  lemma PermanentIsNotScratch(nodeName: string)
    ensures PermanentPath(nodeName) != ScratchPath
  {
    assert PermanentPath(nodeName)[0] == 'n';
  }

  /** Why a task stopped. */
  datatype Reason =
    | ArtifactNotFound(path: string)
    | WriteFailed(error: IoError)
    | UnsupportedDistro(distro: string)
    | WrongDistroType(distroType: string)

  /** What a task asks of the remote side: sync the node with a local
      descriptor file, or nothing (after an abort or a warning). */
  datatype Action = Sync(path: string) | Abort(reason: Reason) | Warn(message: string)

  /** The local filesystem just before the requested sync, and the task's action. */
  datatype Outcome = Outcome(fs: FileSystem, action: Action)

  /** The file a descriptor was written to, and the filesystem after the write. */
  datatype Saved = Saved(fs: FileSystem, path: string)

  /** `_save_config(save, data)`: writes the descriptor as JSON followed by a
      newline. An existing permanent descriptor is only overwritten when
      `save` is set; otherwise the scratch file receives the descriptor. */
  function SaveConfig(fs: FileSystem, save: bool, data: Node, dumps: Dumper): (r: Result<Saved, IoError>)
    ensures var perm := PermanentPath(data.nodeName);
      var target := if save || !Exists(fs, perm) then perm else ScratchPath;
      && (r.Failure? <==> IsDir(fs, target))
      && (r.Failure? ==> r.error == CannotOpen(target))
      && (r.Success? ==> r.value.path == target)
    ensures r.Success? ==> Read(r.value.fs, r.value.path) == Some(dumps(data) + "\n")
    ensures r.Success? ==> r.value.fs.dirs == fs.dirs
    ensures r.Success? ==> forall q :: q != r.value.path ==> Read(r.value.fs, q) == Read(fs, q)
    ensures r.Success? && !save && Exists(fs, PermanentPath(data.nodeName)) ==>
      r.value.path == ScratchPath
      && Read(r.value.fs, PermanentPath(data.nodeName)) == Read(fs, PermanentPath(data.nodeName))
  {
    var perm := PermanentPath(data.nodeName);
    PermanentIsNotScratch(data.nodeName);
    var path := if Exists(fs, perm) && !save then ScratchPath else perm;
    match Write(fs, path, dumps(data) + "\n")
    case Failure(e) => Failure(e)
    case Success(fs') => Success(Saved(fs', path))
  }

  /** The local path whose existence `recipe` and `role` check first:
      `cookbooks/<name>` for a recipe, `roles/<name>` for a role. */
  function ArtifactPath(t: Target): string
  {
    match t
    case Recipe(name) => "cookbooks/" + name
    case Role(name) => "roles/" + name
  }

  /** The descriptor `recipe` and `role` build for a host: its reported
      hostname, the address it was reached at, and a one-entry run list. */
  function Descriptor(t: Target, hostname: string, hostString: string): (d: Node)
    ensures d.nodeName == hostname && d.nodeId == hostString
    ensures |d.runList| == 1 && ParseEntry(d.runList[0]) == Some(t)
    ensures d.attributes == map[]
  {
    EntryRoundTrip(t);
    Node(hostname, hostString, [Entry(t)], map[])
  }

  /** The `recipe` and `role` tasks for one host. `hostname` is the output
      of the remote `hostname` command, `hostString` the address Fabric
      connected to. A missing artifact aborts before anything is written. */
  function Apply(fs: FileSystem, t: Target, hostname: string, hostString: string, save: bool, dumps: Dumper): (o: Outcome)
    ensures !Exists(fs, ArtifactPath(t)) ==> o == Outcome(fs, Abort(ArtifactNotFound(ArtifactPath(t))))
    ensures o.action.Abort? ==> o.fs == fs
    ensures !o.action.Warn?
    ensures o.action.Sync? ==>
      && Exists(fs, ArtifactPath(t))
      && Read(o.fs, o.action.path) == Some(dumps(Descriptor(t, hostname, hostString)) + "\n")
      && (forall q :: q != o.action.path ==> Read(o.fs, q) == Read(fs, q))
      && o.fs.dirs == fs.dirs
    ensures Exists(fs, ArtifactPath(t)) ==>
      match SaveConfig(fs, save, Descriptor(t, hostname, hostString), dumps)
      case Success(s) => o == Outcome(s.fs, Sync(s.path))
      case Failure(e) => o == Outcome(fs, Abort(WriteFailed(e)))
  {
    if !Exists(fs, ArtifactPath(t)) then
      Outcome(fs, Abort(ArtifactNotFound(ArtifactPath(t))))
    else
      match SaveConfig(fs, save, Descriptor(t, hostname, hostString), dumps)
      case Success(s) => Outcome(s.fs, Sync(s.path))
      case Failure(e) => Outcome(fs, Abort(WriteFailed(e)))
  }

  /** `configure`: syncs the host with its existing permanent descriptor, or
      warns and does nothing when there is none. Nothing is written before
      the sync. */
  function Configure(fs: FileSystem, hostname: string): (o: Outcome)
    ensures o.fs == fs
    ensures o.action.Sync? <==> Exists(fs, PermanentPath(hostname))
    ensures o.action.Sync? ==> o.action.path == PermanentPath(hostname)
    ensures !o.action.Abort?
  {
    var path := NodePath + hostname + ".json";
    if !Exists(fs, path) then Outcome(fs, Warn("No config file found for " + hostname))
    else Outcome(fs, Sync(path))
  }

  /** Saving permanently is idempotent: running the same task twice leaves
      the same files as running it once, and syncs the same path. */
  lemma ApplyWithSaveIsIdempotent(fs: FileSystem, t: Target, hostname: string, hostString: string, dumps: Dumper)
    ensures var once := Apply(fs, t, hostname, hostString, true, dumps);
      Apply(once.fs, t, hostname, hostString, true, dumps) == once
  {
    var once := Apply(fs, t, hostname, hostString, true, dumps);
    if once.action.Sync? {
      var twice := Apply(once.fs, t, hostname, hostString, true, dumps);
      assert Exists(once.fs, ArtifactPath(t)) by {
        if ArtifactPath(t) != once.action.path {
          assert Read(once.fs, ArtifactPath(t)) == Read(fs, ArtifactPath(t));
        }
      }
      assert twice.action == once.action;
      assert twice.fs.files == once.fs.files by {
        forall q ensures Read(twice.fs, q) == Read(once.fs, q) {
        }
        assert forall q :: q in twice.fs.files <==> Read(twice.fs, q).Some?;
      }
    }
  }

  /** After a task run with `save` succeeds, `configure` on the same host
      finds the saved descriptor and syncs that file. */
  lemma ConfigureAfterSave(fs: FileSystem, t: Target, hostname: string, hostString: string, dumps: Dumper)
    ensures var a := Apply(fs, t, hostname, hostString, true, dumps);
      var c := Configure(a.fs, hostname);
      a.action.Sync? ==>
        && a.action.path == PermanentPath(hostname)
        && c.action == Sync(PermanentPath(hostname))
        && Read(c.fs, PermanentPath(hostname)) == Some(dumps(Descriptor(t, hostname, hostString)) + "\n")
  {
    var a := Apply(fs, t, hostname, hostString, true, dumps);
    if a.action.Sync? {
      assert a.action.path == PermanentPath(hostname);
      assert Exists(a.fs, PermanentPath(hostname));
    }
  }

  /** Without `save`, the first task for a new host registers its descriptor
      permanently; a second task writes the scratch file and leaves the
      registered descriptor as the first task wrote it. */
  lemma SecondRunUsesScratch(fs: FileSystem, t: Target, t': Target, hostname: string, hostString: string, dumps: Dumper)
    requires Exists(fs, ArtifactPath(t)) && Exists(fs, ArtifactPath(t'))
    requires !Exists(fs, PermanentPath(hostname)) && !IsDir(fs, ScratchPath)
    ensures var first := Apply(fs, t, hostname, hostString, false, dumps);
      var second := Apply(first.fs, t', hostname, hostString, false, dumps);
      && first.action == Sync(PermanentPath(hostname))
      && second.action == Sync(ScratchPath)
      && Read(second.fs, PermanentPath(hostname)) == Some(dumps(Descriptor(t, hostname, hostString)) + "\n")
      && Read(second.fs, ScratchPath) == Some(dumps(Descriptor(t', hostname, hostString)) + "\n")
  {
    var first := Apply(fs, t, hostname, hostString, false, dumps);
    PermanentIsNotScratch(hostname);
    assert first.action == Sync(PermanentPath(hostname));
    assert Exists(first.fs, ArtifactPath(t')) by {
      if ArtifactPath(t') != PermanentPath(hostname) {
        assert Read(first.fs, ArtifactPath(t')) == Read(fs, ArtifactPath(t'));
      }
    }
    assert Exists(first.fs, PermanentPath(hostname));
  }

  /** After a permanent save, the next listing of the node directory that
      includes the new file holds the new descriptor, and finds it by its
      recipe or role, provided the serialiser's output reads back as the
      descriptor it came from. */
  lemma AppliedNodeIsListed(fs: FileSystem, t: Target, hostname: string, hostString: string,
                            dumps: Dumper, parse: Parser, entries: seq<string>)
    requires Exists(fs, ArtifactPath(t)) && !IsDir(fs, PermanentPath(hostname))
    requires parse(dumps(Descriptor(t, hostname, hostString)) + "\n") == Some(Descriptor(t, hostname, hostString))
    requires hostname + ".json" in entries && !IsDir(fs, hostname + ".json")
    ensures var o := Apply(fs, t, hostname, hostString, true, dumps);
      GetNodes(o.fs, parse, entries).Success? ==>
        && Descriptor(t, hostname, hostString) in GetNodes(o.fs, parse, entries).value.nodes
        && Descriptor(t, hostname, hostString) in ListNodesWith(o.fs, parse, entries, t).value
  {
    var o := Apply(fs, t, hostname, hostString, true, dumps);
    var d := Descriptor(t, hostname, hostString);
    var name := hostname + ".json";
    assert NodePath + name == PermanentPath(hostname);
    assert o.action == Sync(PermanentPath(hostname));
    if GetNodes(o.fs, parse, entries).Success? {
      Text.ContainsSuffix(hostname, ".json");
      assert IsNodeFile(o.fs, name);
      assert Parsed(o.fs, parse, name) == Some(d);
      GetNodesOrder(o.fs, parse, entries);
      var files := NodeFileNames(o.fs, parse, entries);
      var i :| 0 <= i < |files| && files[i] == name;
      assert d in GetNodes(o.fs, parse, entries).value.nodes;
      assert Entry(t) in d.runList;
    }
  }

  /** Distro names `deploy_chef` installs with apt. */
  const DebianBased: seq<string> := ["lucid", "karmic", "jaunty", "hardy", "sid", "squeeze", "lenny"]

  /** Distro names `deploy_chef` installs with rpm. */
  const RpmBased: seq<string> := ["centos", "rhel"]

  /** `_check_supported_distro`: the package family of a distro name, or
      nothing (the source returns `False`) for a name in neither list. */
  function CheckSupportedDistro(distro: string): (r: Option<string>)
    ensures r == Some("debian") <==> distro in DebianBased
    ensures r == Some("rpm") <==> distro in RpmBased
    ensures r.None? <==> distro !in DebianBased && distro !in RpmBased
  {
    if distro in DebianBased then Some("debian")
    else if distro in RpmBased then Some("rpm")
    else None
  }

  /** The installer `deploy_chef` runs. */
  datatype Installer = AptInstall(distro: string) | RpmInstall(distro: string)

  /** The decision part of `deploy_chef`: an unsupported distro aborts
      before anything is installed; the `wrong distro type` abort can never
      be reached, because every supported name has a known family. */
  function DeployChef(distro: string): (r: Result<Installer, Reason>)
    ensures r.Failure? <==> CheckSupportedDistro(distro).None?
    ensures r.Failure? ==> r.error == UnsupportedDistro(distro)
    ensures r == Success(AptInstall(distro)) <==> distro in DebianBased
    ensures r == Success(RpmInstall(distro)) <==> distro in RpmBased
  {
    match CheckSupportedDistro(distro)
    case None => Failure(UnsupportedDistro(distro))
    case Some(family) =>
      if family == "debian" then Success(AptInstall(distro))
      else if family == "rpm" then Success(RpmInstall(distro))
      else Failure(WrongDistroType(family))
  }
}

=== FILE: filesystem.dfy ===
/** The local filesystem as the fabfile sees it, relative to the directory
    the fabfile runs in: regular files with their contents, and the set of
    directory paths. */
module LocalFiles {

  import opened Wrappers

  datatype FileSystem = FileSystem(files: map<string, string>, dirs: set<string>)

  /** The error raised when a file cannot be opened for reading or writing. */
  datatype IoError = CannotOpen(path: string)

  /** `os.path.exists(p)`: a file or a directory is there. */
  predicate Exists(fs: FileSystem, p: string)
  {
    p in fs.files || p in fs.dirs
  }

  /** `os.path.isdir(p)`. */
  predicate IsDir(fs: FileSystem, p: string)
  {
    p in fs.dirs
  }

  /** `open(p).read()`: the contents of a regular file, nothing otherwise. */
  function Read(fs: FileSystem, p: string): Option<string>
  {
    if p in fs.files then Some(fs.files[p]) else None
  }

  /** `open(p, 'w').write(content)`: replaces or creates the file at `p`.
      Opening a directory for writing fails. */
  function Write(fs: FileSystem, p: string, content: string): (r: Result<FileSystem, IoError>)
    ensures r.Failure? <==> IsDir(fs, p)
    ensures r.Failure? ==> r.error == CannotOpen(p)
    ensures r.Success? ==> Read(r.value, p) == Some(content)
    ensures r.Success? ==> r.value.dirs == fs.dirs
    ensures r.Success? ==> forall q :: q != p ==> Read(r.value, q) == Read(fs, q)
  {
    if p in fs.dirs then Failure(CannotOpen(p))
    else Success(FileSystem(fs.files[p := content], fs.dirs))
  }
}

=== FILE: registry.dfy ===
/** The node registry of the fabfile: the directory `nodes/` holds one JSON
    descriptor per managed host; listing it yields the known nodes, the
    default host list, and the nodes that carry a given recipe or role. */
module Registry {

  import opened Wrappers
  import opened LocalFiles
  import Text
  import Sorting

  /** The node directory, with its trailing slash. */
  const NodePath: string := "nodes/"

  /** A node descriptor: the `littlechef` section (`nodename`, `nodeid`),
      the `run_list`, and every other top-level key as raw JSON text. */
  datatype Node = Node(
    nodeName: string,
    nodeId: string,
    runList: seq<string>,
    attributes: map<string, string>)

  /** What a run-list entry names: a recipe or a role. */
  datatype Target = Recipe(name: string) | Role(name: string)

  /** The on-disk spelling of a run-list entry: `recipe[<name>]` or `role[<name>]`. */
  function Entry(t: Target): (s: string)
    ensures |s| > |t.name|
    ensures s[|s| - 1] == ']'
  {
    match t
    case Recipe(name) => "recipe[" + name + "]"
    case Role(name) => "role[" + name + "]"
  }

  /** Reads a run-list entry back into the target it names. */
  function ParseEntry(s: string): Option<Target>
  {
    if |s| >= 8 && s[..7] == "recipe[" && s[|s| - 1] == ']' then Some(Recipe(s[7..|s| - 1]))
    else if |s| >= 6 && s[..5] == "role[" && s[|s| - 1] == ']' then Some(Role(s[5..|s| - 1]))
    else None
  }

  /** Every run-list entry reads back as the target it was written from, so
      distinct targets never share a spelling. */
  lemma EntryRoundTrip(t: Target)
    ensures ParseEntry(Entry(t)) == Some(t)
  {
    var s := Entry(t);
    match t
    case Recipe(name) =>
      assert s[..7] == "recipe[";
      assert s[7..|s| - 1] == name;
    case Role(name) =>
      assert s[..5] == "role[";
      assert s[5..|s| - 1] == name;
      if |s| >= 8 {
        assert s[1] == 'o';
      }
  }

  lemma EntryInjective(a: Target, b: Target)
    ensures Entry(a) == Entry(b) <==> a == b
  {
    EntryRoundTrip(a);
    EntryRoundTrip(b);
  }

  /** The JSON parser applied to a file's contents; `None` is a decode error. */
  type Parser = string -> Option<Node>

  /** A directory entry the listing picks up: its name contains `.json`
      anywhere, and `isdir` is false for that bare name. `isdir` is asked
      about the name relative to the working directory, not about
      `nodes/<name>`, so a sub-directory of `nodes/` is not excluded. */
  predicate IsNodeFile(fs: FileSystem, name: string)
  {
    !IsDir(fs, name) && Text.Contains(name, ".json")
  }

  /** The selected directory entries, in listing order. */
  function Select(fs: FileSystem, entries: seq<string>): (r: seq<string>)
    ensures forall n :: n in r <==> n in entries && IsNodeFile(fs, n)
    ensures forall n :: multiset(r)[n] == if IsNodeFile(fs, n) then multiset(entries)[n] else 0
  {
    Text.Filter(entries, n => IsNodeFile(fs, n))
  }

  /** `nodes/<name>` can be opened for reading. */
  predicate Readable(fs: FileSystem, name: string)
  {
    NodePath + name in fs.files
  }

  /** The descriptor in `nodes/<name>`, if it can be read and decoded. */
  function Parsed(fs: FileSystem, parse: Parser, name: string): Option<Node>
  {
    match Read(fs, NodePath + name)
    case None => None
    case Some(text) => parse(text)
  }

  /** The names whose file decodes, in order: one per listed node. */
  function Origins(fs: FileSystem, parse: Parser, names: seq<string>): seq<string>
  {
    Text.Filter(names, n => Parsed(fs, parse, n).Some?)
  }

  /** The names whose file does not decode, in order: one per warning. */
  function Unparsable(fs: FileSystem, parse: Parser, names: seq<string>): seq<string>
  {
    Text.Filter(names, n => Parsed(fs, parse, n).None?)
  }

  /** `names[i]` is the first name whose file cannot be opened. */
  predicate FirstUnreadable(fs: FileSystem, names: seq<string>, i: int)
  {
    && 0 <= i < |names|
    && !Readable(fs, names[i])
    && forall j :: 0 <= j < i ==> Readable(fs, names[j])
  }

  /** The outcome of a listing: the decoded nodes and the names warned about. */
  datatype Listing = Listing(nodes: seq<Node>, warnings: seq<string>)

  /** The loop of `_get_nodes` over already selected and sorted names: a
      file that does not decode is skipped with a warning, a file that cannot
      be opened raises and ends the listing. */
  function Load(fs: FileSystem, parse: Parser, names: seq<string>): (r: Result<Listing, IoError>)
    ensures r.Success? <==> forall i :: 0 <= i < |names| ==> Readable(fs, names[i])
    ensures r.Failure? ==>
      exists i :: FirstUnreadable(fs, names, i) && r.error == CannotOpen(NodePath + names[i])
    ensures r.Success? ==> |r.value.nodes| + |r.value.warnings| == |names|
  {
    if names == [] then Success(Listing([], []))
    else
      match Read(fs, NodePath + names[0])
      case None => Failure(CannotOpen(NodePath + names[0]))
      case Some(text) =>
        var rest := Load(fs, parse, names[1..]);
        if rest.Failure? then
          rest
        else
          match parse(text)
          case None => Success(Listing(rest.value.nodes, [names[0]] + rest.value.warnings))
          case Some(node) => Success(Listing([node] + rest.value.nodes, rest.value.warnings))
  }

  /** A successful load warns, in order, about exactly the names whose file
      does not decode. */
  lemma {:induction false} LoadWarnings(fs: FileSystem, parse: Parser, names: seq<string>)
    requires Load(fs, parse, names).Success?
    ensures Load(fs, parse, names).value.warnings == Unparsable(fs, parse, names)
  {
    if names != [] {
      LoadWarnings(fs, parse, names[1..]);
      var text := fs.files[NodePath + names[0]];
      assert Parsed(fs, parse, names[0]) == parse(text);
      var rest := Load(fs, parse, names[1..]).value;
      var u := Unparsable(fs, parse, names[1..]);
      if parse(text).None? {
        assert Unparsable(fs, parse, names) == [names[0]] + u;
        assert Load(fs, parse, names).value.warnings == [names[0]] + rest.warnings;
      } else {
        assert Unparsable(fs, parse, names) == u;
        assert Load(fs, parse, names).value.warnings == rest.warnings;
      }
    }
  }

  /** A successful load lists, in order, the descriptor of every name whose
      file decodes. */
  lemma {:induction false} LoadMatchesFiles(fs: FileSystem, parse: Parser, names: seq<string>)
    requires Load(fs, parse, names).Success?
    ensures |Load(fs, parse, names).value.nodes| == |Origins(fs, parse, names)|
    ensures forall i :: 0 <= i < |Load(fs, parse, names).value.nodes| ==>
      Parsed(fs, parse, Origins(fs, parse, names)[i]) == Some(Load(fs, parse, names).value.nodes[i])
  {
    if names != [] {
      LoadMatchesFiles(fs, parse, names[1..]);
      var text := fs.files[NodePath + names[0]];
      assert Parsed(fs, parse, names[0]) == parse(text);
      var l := Load(fs, parse, names).value;
      var rest := Load(fs, parse, names[1..]).value;
      var o := Origins(fs, parse, names[1..]);
      if parse(text).Some? {
        var o' := [names[0]] + o;
        assert Origins(fs, parse, names) == o';
        assert l.nodes == [parse(text).value] + rest.nodes;
        forall i | 0 <= i < |l.nodes| ensures Parsed(fs, parse, o'[i]) == Some(l.nodes[i]) {
          if i > 0 {
            assert o'[i] == o[i - 1] && l.nodes[i] == rest.nodes[i - 1];
          }
        }
      } else {
        assert Origins(fs, parse, names) == o;
        assert l.nodes == rest.nodes;
      }
    }
  }

  /** `n` is the node file, in ascending name order, that cannot be opened
      before any other: the one the sorted loop reaches first. */
  predicate FirstUnreadableEntry(fs: FileSystem, entries: seq<string>, n: string)
  {
    && n in entries && IsNodeFile(fs, n) && !Readable(fs, n)
    && forall m :: m in entries && IsNodeFile(fs, m) && !Readable(fs, m) ==> Sorting.LexLe(n, m)
  }

  /** `_get_nodes()`: select the directory entries, sort them, load them. */
  function GetNodes(fs: FileSystem, parse: Parser, entries: seq<string>): (r: Result<Listing, IoError>)
    ensures r.Success? <==> forall n :: n in entries && IsNodeFile(fs, n) ==> Readable(fs, n)
    ensures r.Failure? ==> exists n :: FirstUnreadableEntry(fs, entries, n) && r.error == CannotOpen(NodePath + n)
    ensures r.Success? ==> |r.value.nodes| + |r.value.warnings| == |Select(fs, entries)|
  {
    LoadSelection(fs, parse, entries);
    Load(fs, parse, Sorting.Sort(Select(fs, entries)))
  }

  lemma LoadSelection(fs: FileSystem, parse: Parser, entries: seq<string>)
    ensures var r := Load(fs, parse, Sorting.Sort(Select(fs, entries)));
      && (r.Success? <==> forall n :: n in entries && IsNodeFile(fs, n) ==> Readable(fs, n))
      && (r.Failure? ==> exists n :: FirstUnreadableEntry(fs, entries, n) && r.error == CannotOpen(NodePath + n))
      && (r.Success? ==> |r.value.nodes| + |r.value.warnings| == |Select(fs, entries)|)
  {
    SortedSelection(fs, entries);
    LoadNames(fs, parse, Sorting.Sort(Select(fs, entries)), entries);
  }

  lemma LoadNames(fs: FileSystem, parse: Parser, names: seq<string>, entries: seq<string>)
    requires forall n :: n in names <==> n in entries && IsNodeFile(fs, n)
    requires Sorting.Sorted(names)
    ensures var r := Load(fs, parse, names);
      && (r.Success? <==> forall n :: n in entries && IsNodeFile(fs, n) ==> Readable(fs, n))
      && (r.Failure? ==> exists n :: FirstUnreadableEntry(fs, entries, n) && r.error == CannotOpen(NodePath + n))
  {
    var r := Load(fs, parse, names);
    if r.Success? {
      forall n | n in entries && IsNodeFile(fs, n) ensures Readable(fs, n) {
        var i :| 0 <= i < |names| && names[i] == n;
      }
    } else {
      var k :| FirstUnreadable(fs, names, k) && r.error == CannotOpen(NodePath + names[k]);
      assert names[k] in names;
      forall m | m in entries && IsNodeFile(fs, m) && !Readable(fs, m) ensures Sorting.LexLe(names[k], m) {
        var j :| 0 <= j < |names| && names[j] == m;
        if j == k {
          Sorting.LexLeReflexive(m);
        }
      }
      assert FirstUnreadableEntry(fs, entries, names[k]);
    }
  }

  lemma SortedSelection(fs: FileSystem, entries: seq<string>)
    ensures forall n :: n in Sorting.Sort(Select(fs, entries)) <==> n in entries && IsNodeFile(fs, n)
    ensures |Sorting.Sort(Select(fs, entries))| == |Select(fs, entries)|
  {
    var names := Sorting.Sort(Select(fs, entries));
    assert forall n :: n in names <==> n in multiset(names);
    assert forall n :: n in Select(fs, entries) <==> n in multiset(Select(fs, entries));
  }

  /** The files behind the listed nodes: the selected entries that decode,
      in ascending name order. */
  function NodeFileNames(fs: FileSystem, parse: Parser, entries: seq<string>): seq<string>
  {
    Origins(fs, parse, Sorting.Sort(Select(fs, entries)))
  }

  /** The nodes of a successful listing are the decoded descriptors of the
      selected files that decode, one per file, in ascending file-name order. */
  lemma GetNodesOrder(fs: FileSystem, parse: Parser, entries: seq<string>)
    requires GetNodes(fs, parse, entries).Success?
    ensures var l := GetNodes(fs, parse, entries).value;
      var files := NodeFileNames(fs, parse, entries);
      && Sorting.Sorted(files)
      && |files| == |l.nodes|
      && (forall i :: 0 <= i < |files| ==> Parsed(fs, parse, files[i]) == Some(l.nodes[i]))
      && (forall n :: n in files <==> n in entries && IsNodeFile(fs, n) && Parsed(fs, parse, n).Some?)
  {
    var names := Sorting.Sort(Select(fs, entries));
    SortedSelection(fs, entries);
    LoadMatchesFiles(fs, parse, names);
    Sorting.FilterSorted(names, n => Parsed(fs, parse, n).Some?);
  }

  /** A successful listing warns about exactly the selected files that do not
      decode, in ascending file-name order. */
  lemma GetNodesWarnings(fs: FileSystem, parse: Parser, entries: seq<string>)
    requires GetNodes(fs, parse, entries).Success?
    ensures forall w :: w in GetNodes(fs, parse, entries).value.warnings <==>
      w in entries && IsNodeFile(fs, w) && Parsed(fs, parse, w).None?
    ensures GetNodes(fs, parse, entries).value.warnings == Unparsable(fs, parse, Sorting.Sort(Select(fs, entries)))
  {
    SortedSelection(fs, entries);
    LoadWarnings(fs, parse, Sorting.Sort(Select(fs, entries)));
  }

  /** The listing depends on which entries the directory holds, not on the
      order `os.listdir` reports them in. */
  lemma GetNodesIgnoresListingOrder(fs: FileSystem, parse: Parser, e1: seq<string>, e2: seq<string>)
    requires multiset(e1) == multiset(e2)
    ensures GetNodes(fs, parse, e1) == GetNodes(fs, parse, e2)
  {
    var s1 := Select(fs, e1);
    var s2 := Select(fs, e2);
    assert forall n :: multiset(s1)[n] == multiset(s2)[n];
    assert multiset(s1) == multiset(s2);
    Sorting.SortIndependentOfOrder(s1, s2);
  }

  /** `env.hosts` at load time: the `nodeid` of every listed node. */
  function Hosts(fs: FileSystem, parse: Parser, entries: seq<string>): (r: Result<seq<string>, IoError>)
    ensures r.Success? <==> GetNodes(fs, parse, entries).Success?
    ensures r.Success? ==> |r.value| == |GetNodes(fs, parse, entries).value.nodes|
    ensures r.Success? ==> forall i :: 0 <= i < |r.value| ==>
      r.value[i] == GetNodes(fs, parse, entries).value.nodes[i].nodeId
  {
    match GetNodes(fs, parse, entries)
    case Failure(e) => Failure(e)
    case Success(l) => Success(seq(|l.nodes|, i requires 0 <= i < |l.nodes| => l.nodes[i].nodeId))
  }

  /** The hosts are the `nodeid`s written in the selected node files that
      decode, in ascending file-name order. */
  lemma HostsFromNodeFiles(fs: FileSystem, parse: Parser, entries: seq<string>)
    requires Hosts(fs, parse, entries).Success?
    ensures var hosts := Hosts(fs, parse, entries).value;
      var files := NodeFileNames(fs, parse, entries);
      && |hosts| == |files|
      && forall i :: 0 <= i < |hosts| ==>
        Parsed(fs, parse, files[i]).Some? && hosts[i] == Parsed(fs, parse, files[i]).value.nodeId
  {
    GetNodesOrder(fs, parse, entries);
  }

  /** The nodes whose run list holds `entry` as one of its elements (list
      membership: the whole entry must match). */
  function NodesWith(nodes: seq<Node>, entry: string): (r: seq<Node>)
    ensures forall d :: d in r <==> d in nodes && entry in d.runList
    ensures forall d :: multiset(r)[d] == if entry in d.runList then multiset(nodes)[d] else 0
  {
    Text.Filter(nodes, (d: Node) => entry in d.runList)
  }

  /** `list_nodes_with_recipe` and `list_nodes_with_role`: the listed nodes
      that carry the target, in listing order. */
  function ListNodesWith(fs: FileSystem, parse: Parser, entries: seq<string>, t: Target): (r: Result<seq<Node>, IoError>)
    ensures r.Success? <==> GetNodes(fs, parse, entries).Success?
    ensures r.Success? ==> forall d :: d in r.value <==>
      d in GetNodes(fs, parse, entries).value.nodes && Entry(t) in d.runList
    ensures r.Success? ==> r.value == NodesWith(GetNodes(fs, parse, entries).value.nodes, Entry(t))
  {
    match GetNodes(fs, parse, entries)
    case Failure(e) => Failure(e)
    case Success(l) => Success(NodesWith(l.nodes, Entry(t)))
  }

  /** Selection keeps the listing order: the nodes found in the first part of
      a listing come before those found in the rest. */
  lemma NodesWithKeepsOrder(a: seq<Node>, b: seq<Node>, entry: string)
    ensures NodesWith(a + b, entry) == NodesWith(a, entry) + NodesWith(b, entry)
  {
    Text.FilterAppend(a, b, (d: Node) => entry in d.runList);
  }

  /** A node assigned `recipe[apache2]` is not found when asking for the recipe
      `apache`: the match is on whole entries, not substrings. */
  lemma WholeEntryMatch()
    ensures NodesWith([Node("web1", "10.0.0.5", ["recipe[apache2]"], map[])], Entry(Recipe("apache"))) == []
    ensures NodesWith([Node("web1", "10.0.0.5", ["recipe[apache2]"], map[])], Entry(Role("apache2"))) == []
  {
    var d := Node("web1", "10.0.0.5", ["recipe[apache2]"], map[]);
    assert Entry(Recipe("apache")) != "recipe[apache2]";
    assert Entry(Role("apache2")) != "recipe[apache2]" by {
      EntryInjective(Role("apache2"), Recipe("apache2"));
    }
  }
}

=== FILE: solo.dfy ===
/** The planning logic of `littlechef/solo.py`: recognising the distro from
    the text of `/etc/issue`, choosing how to install Chef, the apt source
    line for the Opscode repository, and the text of `solo.rb`. The outputs
    of remote commands are parameters. */
module Solo {

  import opened Wrappers
  import Text

  /** One test of `check_distro`: a marker searched for in `/etc/issue`, the
      distro type it implies, and the distro name, or `None` when the name
      is the output of `lsb_release -cs`. */
  datatype Rule = Rule(marker: string, distroType: string, distro: Option<string>)

  /** The markers, in the order `check_distro` tests them. */
  const Rules: seq<Rule> := [
    Rule("Debian GNU/Linux 5.0", "debian", Some("lenny")),
    Rule("Debian GNU/Linux 6.0", "debian", Some("squeeze")),
    Rule("Debian GNU/Linux wheezy", "debian", Some("wheezy")),
    Rule("Ubuntu", "debian", None),
    Rule("CentOS", "rpm", Some("CentOS")),
    Rule("Red Hat Enterprise Linux", "rpm", Some("Red Hat")),
    Rule("Scientific Linux SL", "rpm", Some("Scientific Linux")),
    Rule("This is \\n.\\O (\\s \\m \\r) \\t", "gentoo", Some("Gentoo"))
  ]

  /** The `(distro_type, distro)` pair a rule yields. */
  function Verdict(rule: Rule, lsbRelease: string): (string, string)
  {
    match rule.distro
    case Some(name) => (rule.distroType, name)
    case None => (rule.distroType, lsbRelease)
  }

  /** The verdict of the first rule whose marker occurs in `issue`. */
  function FirstMatch(issue: string, rules: seq<Rule>, lsbRelease: string): (r: Option<(string, string)>)
    ensures r.None? <==> forall i :: 0 <= i < |rules| ==> !Text.Contains(issue, rules[i].marker)
    ensures r.Some? ==> exists i :: FirstMatchAt(issue, rules, i) && r.value == Verdict(rules[i], lsbRelease)
  {
    if rules == [] then None
    else if Text.Contains(issue, rules[0].marker) then
      assert FirstMatchAt(issue, rules, 0);
      Some(Verdict(rules[0], lsbRelease))
    else
      var r := FirstMatch(issue, rules[1..], lsbRelease);
      assert forall i :: FirstMatchAt(issue, rules[1..], i) ==> FirstMatchAt(issue, rules, i + 1);
      r
  }

  /** `rules[i]` is the first rule whose marker occurs in `issue`. */
  predicate FirstMatchAt(issue: string, rules: seq<Rule>, i: int)
  {
    && 0 <= i < |rules|
    && Text.Contains(issue, rules[i].marker)
    && forall j :: 0 <= j < i ==> !Text.Contains(issue, rules[j].marker)
  }

  /** `check_distro`, with the text of `/etc/issue` and the output of
      `lsb_release -cs` as parameters. An unknown distro aborts with the
      issue text. */
  function CheckDistro(issue: string, lsbRelease: string): (r: Result<(string, string), string>)
    ensures r.Failure? ==> r.error == "Unsupported distro " + issue
    ensures r.Success? ==> r.value.0 == "debian" || r.value.0 == "rpm" || r.value.0 == "gentoo"
  {
    if Text.Contains(issue, "Debian GNU/Linux 5.0") then Success(("debian", "lenny"))
    else if Text.Contains(issue, "Debian GNU/Linux 6.0") then Success(("debian", "squeeze"))
    else if Text.Contains(issue, "Debian GNU/Linux wheezy") then Success(("debian", "wheezy"))
    else if Text.Contains(issue, "Ubuntu") then Success(("debian", lsbRelease))
    else if Text.Contains(issue, "CentOS") then Success(("rpm", "CentOS"))
    else if Text.Contains(issue, "Red Hat Enterprise Linux") then Success(("rpm", "Red Hat"))
    else if Text.Contains(issue, "Scientific Linux SL") then Success(("rpm", "Scientific Linux"))
    else if Text.Contains(issue, "This is \\n.\\O (\\s \\m \\r) \\t") then Success(("gentoo", "Gentoo"))
    else Failure("Unsupported distro " + issue)
  }

  /** `check_distro` is the first-match-wins reading of the rule table. */
  lemma CheckDistroIsFirstMatch(issue: string, lsbRelease: string)
    ensures match CheckDistro(issue, lsbRelease)
      case Success(v) => FirstMatch(issue, Rules, lsbRelease) == Some(v)
      case Failure(_) => FirstMatch(issue, Rules, lsbRelease).None?
  {
    var r := FirstMatch(issue, Rules, lsbRelease);
    var c := CheckDistro(issue, lsbRelease);
    if r.Some? {
      var i :| FirstMatchAt(issue, Rules, i) && r.value == Verdict(Rules[i], lsbRelease);
      assert c == Success(r.value) by {
        if i > 0 { assert !Text.Contains(issue, Rules[0].marker); }
        if i > 1 { assert !Text.Contains(issue, Rules[1].marker); }
        if i > 2 { assert !Text.Contains(issue, Rules[2].marker); }
        if i > 3 { assert !Text.Contains(issue, Rules[3].marker); }
        if i > 4 { assert !Text.Contains(issue, Rules[4].marker); }
        if i > 5 { assert !Text.Contains(issue, Rules[5].marker); }
        if i > 6 { assert !Text.Contains(issue, Rules[6].marker); }
      }
    } else {
      assert !Text.Contains(issue, Rules[0].marker);
      assert !Text.Contains(issue, Rules[1].marker);
      assert !Text.Contains(issue, Rules[2].marker);
      assert !Text.Contains(issue, Rules[3].marker);
      assert !Text.Contains(issue, Rules[4].marker);
      assert !Text.Contains(issue, Rules[5].marker);
      assert !Text.Contains(issue, Rules[6].marker);
      assert !Text.Contains(issue, Rules[7].marker);
    }
  }

  /** The earliest marker wins whatever else the issue text mentions. */
  lemma CheckDistroPriority(issue: string, lsbRelease: string)
    ensures Text.Contains(issue, "Debian GNU/Linux 5.0") ==> CheckDistro(issue, lsbRelease) == Success(("debian", "lenny"))
    ensures && Text.Contains(issue, "Ubuntu")
            && !Text.Contains(issue, "Debian GNU/Linux 5.0")
            && !Text.Contains(issue, "Debian GNU/Linux 6.0")
            && !Text.Contains(issue, "Debian GNU/Linux wheezy") ==>
      CheckDistro(issue, lsbRelease) == Success(("debian", lsbRelease))
    // A corollary of the clause above: a banner without `Debian GNU/Linux`
    // carries none of the three Debian markers.
    ensures Text.Contains(issue, "Ubuntu") && !Text.Contains(issue, "Debian GNU/Linux") ==>
      CheckDistro(issue, lsbRelease) == Success(("debian", lsbRelease))
  {
    if Text.Contains(issue, "Ubuntu") && !Text.Contains(issue, "Debian GNU/Linux") {
      ContainsPrefix(issue, "Debian GNU/Linux", "Debian GNU/Linux 5.0");
      ContainsPrefix(issue, "Debian GNU/Linux", "Debian GNU/Linux 6.0");
      ContainsPrefix(issue, "Debian GNU/Linux", "Debian GNU/Linux wheezy");
      assert "Debian GNU/Linux 5.0"[..16] == "Debian GNU/Linux";
    }
  }

  /** A text containing a string contains each of that string's prefixes. */
  lemma ContainsPrefix(s: string, prefix: string, pat: string)
    requires |prefix| <= |pat| && pat[..|prefix|] == prefix
    ensures Text.Contains(s, pat) ==> Text.Contains(s, prefix)
  {
    if Text.Contains(s, pat) {
      var i :| Text.OccursAt(s, pat, i);
      assert s[i..i + |prefix|] == s[i..i + |pat|][..|prefix|];
      assert Text.OccursAt(s, prefix, i);
    }
  }

  /** Every character of a string occurs in a text that contains it. */
  lemma ContainedCharsOccur(s: string, pat: string)
    ensures Text.Contains(s, pat) ==> forall k :: 0 <= k < |pat| ==> pat[k] in s
  {
    if Text.Contains(s, pat) {
      var i :| Text.OccursAt(s, pat, i);
      forall k | 0 <= k < |pat| ensures pat[k] in s {
        assert s[i..i + |pat|][k] == s[i + k];
      }
    }
  }

  /** Debian 5.0 is lenny. */
  lemma LennyExample(lsbRelease: string)
    ensures CheckDistro("Debian GNU/Linux 5.0", lsbRelease) == Success(("debian", "lenny"))
  {
    assert Text.OccursAt("Debian GNU/Linux 5.0", "Debian GNU/Linux 5.0", 0);
  }

  /** Debian 6.0 is squeeze: the 5.0 marker, tested first, does not match. */
  lemma SqueezeExample(lsbRelease: string)
    ensures CheckDistro("Debian GNU/Linux 6.0", lsbRelease) == Success(("debian", "squeeze"))
  {
    var issue := "Debian GNU/Linux 6.0";
    assert Text.OccursAt(issue, issue, 0);
    MissingCharExcludes(issue, "Debian GNU/Linux 5.0", 17);
  }

  /** Debian wheezy is wheezy: neither numbered Debian marker matches. */
  lemma WheezyExample(lsbRelease: string)
    ensures CheckDistro("Debian GNU/Linux wheezy", lsbRelease) == Success(("debian", "wheezy"))
  {
    var issue := "Debian GNU/Linux wheezy";
    NotNumberedDebian(issue);
    assert Text.OccursAt(issue, issue, 0);
    WheezyBranch(issue, lsbRelease);
  }

  /** A banner without the digits 5 and 6 carries neither numbered Debian
      marker. */
  lemma NotNumberedDebian(issue: string)
    requires '5' !in issue && '6' !in issue
    ensures !Text.Contains(issue, "Debian GNU/Linux 5.0")
    ensures !Text.Contains(issue, "Debian GNU/Linux 6.0")
  {
    MissingCharExcludes(issue, "Debian GNU/Linux 5.0", 17);
    MissingCharExcludes(issue, "Debian GNU/Linux 6.0", 17);
  }

  lemma WheezyBranch(issue: string, lsbRelease: string)
    requires !Text.Contains(issue, "Debian GNU/Linux 5.0") && !Text.Contains(issue, "Debian GNU/Linux 6.0")
    requires Text.Contains(issue, "Debian GNU/Linux wheezy")
    ensures CheckDistro(issue, lsbRelease) == Success(("debian", "wheezy"))
  {
  }

  /** A text that lacks one character of a string does not contain it. */
  lemma MissingCharExcludes(s: string, pat: string, k: int)
    requires 0 <= k < |pat| && pat[k] !in s
    ensures !Text.Contains(s, pat)
  {
    ContainedCharsOccur(s, pat);
  }

  /** `_apt_install`'s version suffix: none for 0.9, `-<version>` otherwise. */
  function VersionSuffix(version: string): (s: string)
    ensures s == "" <==> version == "0.9"
    ensures s != "" ==> s[0] == '-' && s[1..] == version
  {
    if version == "0.9" then "" else "-" + version
  }

  const AptPrefix: string := "deb http://apt.opscode.com/ "
  const AptSuffix: string := " main"

  /** The line `_apt_install` appends to `opscode.list`: it reads back as an
      Opscode source line whose suite is the distro with the version suffix. */
  function AptSourceLine(distro: string, version: string): (line: string)
    ensures AptSuite(line) == Some(distro + VersionSuffix(version))
  {
    var suite := distro + VersionSuffix(version);
    Text.SliceParts(AptPrefix, suite, AptSuffix);
    AptPrefix + suite + AptSuffix
  }

  /** The suite field of an Opscode apt source line, if the line has that shape. */
  function AptSuite(line: string): Option<string>
  {
    if |line| >= |AptPrefix| + |AptSuffix| && line[..|AptPrefix|] == AptPrefix
       && line[|line| - |AptSuffix|..] == AptSuffix
    then Some(line[|AptPrefix|..|line| - |AptSuffix|])
    else None
  }

  /** The suite of the line is the distro name, followed by `-<version>`
      unless the version is 0.9. */
  lemma AptSourceLineSuite(distro: string, version: string)
    ensures AptSuite(AptSourceLine(distro, version)) == Some(distro + VersionSuffix(version))
    ensures version == "0.9" ==> AptSuite(AptSourceLine(distro, version)) == Some(distro)
    ensures version != "0.9" ==> AptSuite(AptSourceLine(distro, version)) == Some(distro + "-" + version)
  {
    if version == "0.9" {
      assert distro + VersionSuffix(version) == distro;
    } else {
      assert distro + VersionSuffix(version) == distro + "-" + version;
    }
  }

  /** How `install` installs Chef. */
  datatype InstallPlan =
    | GemApt
    | Apt(sourceLine: string)
    | GemRpm
    | Rpm
    | Emerge

  /** `install(distro_type, distro, gems, version)`: the installer chosen by
      distro type and the `gems` flag; any other distro type aborts. */
  function Install(distroType: string, distro: string, gems: string, version: string): (r: Result<InstallPlan, string>)
    ensures r == Success(GemApt) <==> distroType == "debian" && gems == "yes"
    ensures r.Success? && r.value.Apt? <==> distroType == "debian" && gems != "yes"
    ensures r.Success? && r.value.Apt? ==> AptSuite(r.value.sourceLine) == Some(distro + VersionSuffix(version))
    ensures r == Success(GemRpm) <==> distroType == "rpm" && gems == "yes"
    ensures r == Success(Rpm) <==> distroType == "rpm" && gems != "yes"
    ensures r == Success(Emerge) <==> distroType == "gentoo"
    ensures r.Failure? <==> distroType != "debian" && distroType != "rpm" && distroType != "gentoo"
  {
    if distroType == "debian" then
      if gems == "yes" then Success(GemApt)
      else
        AptSourceLineSuite(distro, version);
        Success(Apt(AptSourceLine(distro, version)))
    else if distroType == "rpm" then
      if gems == "yes" then Success(GemRpm) else Success(Rpm)
    else if distroType == "gentoo" then Success(Emerge)
    else Failure("wrong distro type: " + distroType)
  }

  /** Every distro `check_distro` recognises can be installed: `install`
      never reaches its `wrong distro type` abort on such a result. */
  lemma RecognisedDistroInstalls(issue: string, lsbRelease: string, gems: string, version: string)
    requires CheckDistro(issue, lsbRelease).Success?
    ensures var v := CheckDistro(issue, lsbRelease).value;
      Install(v.0, v.1, gems, version).Success?
  {
  }

  /** The entries of the `cookbook_path` list: each configured cookbook
      directory under the node work path, quoted, last configured first. */
  function CookbookEntries(workPath: string, cookbookPaths: seq<string>): (r: seq<string>)
    ensures |r| == |cookbookPaths|
    ensures forall i :: 0 <= i < |r| ==>
      r[i] == "\"" + workPath + "/" + cookbookPaths[|cookbookPaths| - 1 - i] + "\""
  {
    var reversed := Text.Reverse(cookbookPaths);
    seq(|reversed|, i requires 0 <= i < |reversed| => "\"" + workPath + "/" + reversed[i] + "\"")
  }

  /** The `cookbook_path` line of `solo.rb`: the entries, comma-separated,
      inside one pair of brackets. */
  function CookbookPathLine(workPath: string, cookbookPaths: seq<string>): (line: string)
    ensures |line| >= 16 && line[..15] == "cookbook_path [" && line[|line| - 1] == ']'
    ensures line[15..|line| - 1] == Text.Join(", ", CookbookEntries(workPath, cookbookPaths))
    ensures cookbookPaths == [] ==> line == "cookbook_path []"
    ensures |cookbookPaths| == 1 ==> line == "cookbook_path [\"" + workPath + "/" + cookbookPaths[0] + "\"]"
  {
    "cookbook_path [" + Text.Join(", ", CookbookEntries(workPath, cookbookPaths)) + "]"
  }

  /** The lines of `solo.rb`, in order. */
  function SoloRbLines(workPath: string, cookbookPaths: seq<string>): seq<string>
  {
    var cookbookLine := CookbookPathLine(workPath, cookbookPaths);
    [ "file_cache_path \"" + workPath + "/cache\"",
      cookbookLine,
      cookbookLine,
      "role_path \"" + workPath + "/roles\"",
      "data_bag_path \"" + workPath + "/data_bags\"" ]
  }

  /** The text `configure` appends to `solo.rb`, accumulated as the source
      does. */
  function SoloRb(workPath: string, cookbookPaths: seq<string>): (text: string)
    ensures text == Text.Unlines(SoloRbLines(workPath, cookbookPaths))
  {
    var text := "file_cache_path \"" + workPath + "/cache\"";
    var text := text + "\n";
    var cookbookLine := CookbookPathLine(workPath, cookbookPaths);
    var text := text + cookbookLine + "\n";
    var text := text + cookbookLine + "\n";
    var text := text + "role_path \"" + workPath + "/roles\"" + "\n";
    var text := text + "data_bag_path \"" + workPath + "/data_bags\"" + "\n";
    UnlinesFive(SoloRbLines(workPath, cookbookPaths));
    text
  }

  lemma UnlinesFive(lines: seq<string>)
    requires |lines| == 5
    ensures Text.Unlines(lines)
      == lines[0] + "\n" + lines[1] + "\n" + lines[2] + "\n" + lines[3] + "\n" + lines[4] + "\n"
  {
    assert lines[4..][1..] == [];
    assert lines[4..][0] == lines[4];
    assert Text.Unlines(lines[4..][1..]) == "";
    var t4 := Text.Unlines(lines[4..]);
    assert t4 == lines[4] + "\n";
    assert lines[3..][1..] == lines[4..];
    var t3 := Text.Unlines(lines[3..]);
    assert t3 == lines[3] + "\n" + t4;
    assert lines[2..][1..] == lines[3..];
    var t2 := Text.Unlines(lines[2..]);
    assert t2 == lines[2] + "\n" + t3;
    assert lines[1..][1..] == lines[2..];
    var t1 := Text.Unlines(lines[1..]);
    assert t1 == lines[1] + "\n" + t2;
    assert Text.Unlines(lines) == lines[0] + "\n" + t1;
  }

  /** When neither the work path nor a cookbook path holds a newline,
      `solo.rb` consists of exactly five newline-terminated lines: the cache
      path, the cookbook path line twice, the role path and the data bag path. */
  lemma SoloRbHasFiveLines(workPath: string, cookbookPaths: seq<string>)
    requires '\n' !in workPath
    requires forall i :: 0 <= i < |cookbookPaths| ==> '\n' !in cookbookPaths[i]
    ensures Text.SplitLines(SoloRb(workPath, cookbookPaths)) == SoloRbLines(workPath, cookbookPaths)
    ensures Text.Count(SoloRb(workPath, cookbookPaths), '\n') == 5
  {
    var entries := CookbookEntries(workPath, cookbookPaths);
    forall i | 0 <= i < |entries| ensures '\n' !in entries[i] {
      var p := cookbookPaths[|cookbookPaths| - 1 - i];
      assert entries[i] == "\"" + workPath + "/" + p + "\"";
    }
    Text.JoinExcludes(", ", entries, '\n');
    var lines := SoloRbLines(workPath, cookbookPaths);
    assert forall i :: 0 <= i < |lines| ==> '\n' !in lines[i];
    Text.SplitUnlines(lines);
    Text.CountUnlines(lines);
  }
}

=== FILE: sorting.dfy ===
/** Python's `sorted()` on a list of strings: ascending lexicographic order
    by character code. */
module Sorting {

  import Text

  /** `a <= b` for Python strings: compare character by character, and a
      proper prefix sorts first. */
  predicate LexLe(a: string, b: string)
  {
    if a == [] then true
    else if b == [] then false
    else if a[0] != b[0] then a[0] < b[0]
    else LexLe(a[1..], b[1..])
  }

  lemma {:induction false} LexLeReflexive(a: string)
    ensures LexLe(a, a)
  {
    if a != [] {
      LexLeReflexive(a[1..]);
    }
  }

  lemma {:induction false} LexLeTotal(a: string, b: string)
    ensures LexLe(a, b) || LexLe(b, a)
  {
    if a != [] && b != [] && a[0] == b[0] {
      LexLeTotal(a[1..], b[1..]);
    }
  }

  lemma {:induction false} LexLeAntisymmetric(a: string, b: string)
    requires LexLe(a, b) && LexLe(b, a)
    ensures a == b
  {
    if a != [] {
      LexLeAntisymmetric(a[1..], b[1..]);
      assert a == [a[0]] + a[1..];
      assert b == [b[0]] + b[1..];
    }
  }

  lemma {:induction false} LexLeTransitive(a: string, b: string, c: string)
    requires LexLe(a, b) && LexLe(b, c)
    ensures LexLe(a, c)
  {
    if a != [] && b != [] && c != [] && a[0] == b[0] == c[0] {
      LexLeTransitive(a[1..], b[1..], c[1..]);
    }
  }

  predicate Sorted(s: seq<string>)
  {
    forall i, j :: 0 <= i < j < |s| ==> LexLe(s[i], s[j])
  }

  lemma SortedTail(s: seq<string>)
    requires Sorted(s) && s != []
    ensures Sorted(s[1..])
  {
    var t := s[1..];
    forall i, j | 0 <= i < j < |t| ensures LexLe(t[i], t[j]) {
      assert t[i] == s[i + 1] && t[j] == s[j + 1];
    }
  }

  lemma SortedCons(x: string, s: seq<string>)
    requires Sorted(s)
    requires forall y :: y in s ==> LexLe(x, y)
    ensures Sorted([x] + s)
  {
    var r := [x] + s;
    forall i, j | 0 <= i < j < |r| ensures LexLe(r[i], r[j]) {
      assert r[j] == s[j - 1];
      if i > 0 {
        assert r[i] == s[i - 1];
      }
    }
  }

  /** Inserts `x` into a sorted list before the first element it does not
      exceed. */
  function Insert(x: string, s: seq<string>): (r: seq<string>)
    requires Sorted(s)
    ensures Sorted(r)
    ensures multiset(r) == multiset(s) + multiset{x}
  {
    if s == [] then [x]
    else if LexLe(x, s[0]) then
      forall j | 0 <= j < |s| ensures LexLe(x, s[j]) {
        if j > 0 {
          LexLeTransitive(x, s[0], s[j]);
        }
      }
      [x] + s
    else
      LexLeTotal(x, s[0]);
      var rest := Insert(x, s[1..]);
      assert s == [s[0]] + s[1..];
      forall y | y in multiset(rest) ensures LexLe(s[0], y) {
        if y != x {
          assert y in multiset(s[1..]);
        }
      }
      [s[0]] + rest
  }

  /** Insertion sort: the sorted permutation of `s`. */
  function Sort(s: seq<string>): (r: seq<string>)
    ensures Sorted(r)
    ensures multiset(r) == multiset(s)
    ensures |r| == |s|
  {
    if s == [] then []
    else
      assert s == [s[0]] + s[1..];
      Insert(s[0], Sort(s[1..]))
  }

  /** There is only one sorted arrangement of a multiset of strings, so the
      sorted order does not depend on the order of the input. */
  lemma {:induction false} SortedUnique(a: seq<string>, b: seq<string>)
    requires Sorted(a) && Sorted(b)
    requires multiset(a) == multiset(b)
    ensures a == b
  {
    if a != [] {
      assert |b| == |a| by {
        assert |multiset(a)| == |a| && |multiset(b)| == |b|;
      }
      assert a[0] in multiset(b);
      assert b[0] in multiset(a);
      var i :| 0 <= i < |b| && b[i] == a[0];
      var j :| 0 <= j < |a| && a[j] == b[0];
      assert LexLe(b[0], a[0]) by {
        if i > 0 {
          assert LexLe(b[0], b[i]);
        } else {
          LexLeReflexive(b[0]);
        }
      }
      assert LexLe(a[0], b[0]) by {
        if j > 0 {
          assert LexLe(a[0], a[j]);
        } else {
          LexLeReflexive(a[0]);
        }
      }
      LexLeAntisymmetric(a[0], b[0]);
      assert a == [a[0]] + a[1..];
      assert b == [b[0]] + b[1..];
      assert multiset(a) == multiset{a[0]} + multiset(a[1..]);
      assert multiset(b) == multiset{b[0]} + multiset(b[1..]);
      assert multiset(a[1..]) == multiset(a) - multiset{a[0]};
      assert multiset(b[1..]) == multiset(b) - multiset{b[0]};
      SortedTail(a);
      SortedTail(b);
      SortedUnique(a[1..], b[1..]);
    }
  }

  /** Sorting two arrangements of the same names gives the same list. */
  lemma SortIndependentOfOrder(a: seq<string>, b: seq<string>)
    requires multiset(a) == multiset(b)
    ensures Sort(a) == Sort(b)
  {
    SortedUnique(Sort(a), Sort(b));
  }

  /** Removing elements from a sorted list leaves it sorted. */
  lemma {:induction false} FilterSorted(s: seq<string>, p: string -> bool)
    requires Sorted(s)
    ensures Sorted(Text.Filter(s, p))
  {
    if s != [] {
      var tail := s[1..];
      SortedTail(s);
      FilterSorted(tail, p);
      var rest := Text.Filter(tail, p);
      if p(s[0]) {
        forall y | y in rest ensures LexLe(s[0], y) {
          var k :| 0 <= k < |tail| && tail[k] == y;
          assert y == s[k + 1];
        }
        SortedCons(s[0], rest);
      }
    }
  }
}

=== FILE: text.dfy ===
/** String and sequence helpers with the meaning Python gives the same
    operations: substring test (`pat in s`), list filtering, reversal,
    `sep.join(items)` and line splitting. */
module Text {

  /** `pat` occurs in `s` starting at index `i`. */
  predicate OccursAt(s: string, pat: string, i: int)
  {
    0 <= i && i + |pat| <= |s| && s[i..i + |pat|] == pat
  }

  /** Python's `pat in s` for strings: true iff `pat` is a substring of `s`
      (so the empty string occurs in every string). */
  function Contains(s: string, pat: string): (b: bool)
    ensures b <==> exists i :: OccursAt(s, pat, i)
    decreases |s|
  {
    if |s| < |pat| then
      assert forall i :: !OccursAt(s, pat, i);
      false
    else if s[..|pat|] == pat then
      assert OccursAt(s, pat, 0);
      true
    else
      var r := Contains(s[1..], pat);
      assert forall i :: OccursAt(s, pat, i) && i > 0 ==> OccursAt(s[1..], pat, i - 1);
      assert forall i :: OccursAt(s[1..], pat, i) ==> OccursAt(s, pat, i + 1);
      assert !OccursAt(s, pat, 0);
      r
  }

  /** A string always contains each of its suffixes. */
  lemma ContainsSuffix(s: string, suffix: string)
    ensures Contains(s + suffix, suffix)
  {
    assert OccursAt(s + suffix, suffix, |s|);
  }

  /** The elements of `s` that satisfy `p`, in their original order
      (a Python list comprehension with an `if`). */
  function Filter<T(!new)>(s: seq<T>, p: T -> bool): (r: seq<T>)
    ensures |r| <= |s|
    ensures forall x :: x in r <==> x in s && p(x)
    ensures forall x :: multiset(r)[x] == if p(x) then multiset(s)[x] else 0
  {
    if s == [] then []
    else
      var rest := Filter(s[1..], p);
      assert s == [s[0]] + s[1..];
      if p(s[0]) then [s[0]] + rest else rest
  }

  /** Filtering distributes over concatenation: the order of the input is
      the order of the output. */
  lemma {:induction false} FilterAppend<T(!new)>(a: seq<T>, b: seq<T>, p: T -> bool)
    ensures Filter(a + b, p) == Filter(a, p) + Filter(b, p)
  {
    if a == [] {
      assert a + b == b;
    } else {
      assert (a + b)[0] == a[0];
      assert (a + b)[1..] == a[1..] + b;
      FilterAppend(a[1..], b, p);
      if p(a[0]) {
        calc {
          Filter(a + b, p);
          [a[0]] + Filter(a[1..] + b, p);
          [a[0]] + (Filter(a[1..], p) + Filter(b, p));
          ([a[0]] + Filter(a[1..], p)) + Filter(b, p);
        }
      }
    }
  }

  /** The three parts of a concatenation can be sliced back out. */
  lemma SliceParts<T>(a: seq<T>, b: seq<T>, c: seq<T>)
    ensures (a + b + c)[..|a|] == a
    ensures (a + b + c)[|a| + |b|..] == c
    ensures (a + b + c)[|a|..|a| + |b|] == b
  {
  }

  /** Python's `xs[:]` followed by `.reverse()`. */
  function Reverse<T>(s: seq<T>): (r: seq<T>)
    ensures |r| == |s|
    ensures forall i :: 0 <= i < |s| ==> r[i] == s[|s| - 1 - i]
  {
    if s == [] then [] else Reverse(s[1..]) + [s[0]]
  }

  /** Python's `sep.join(items)`. */
  function Join(sep: string, items: seq<string>): string
  {
    if items == [] then ""
    else if |items| == 1 then items[0]
    else items[0] + sep + Join(sep, items[1..])
  }

  /** A character absent from the separator and from every item is absent
      from the joined string. */
  lemma {:induction false} JoinExcludes(sep: string, items: seq<string>, c: char)
    requires c !in sep
    requires forall i :: 0 <= i < |items| ==> c !in items[i]
    ensures c !in Join(sep, items)
  {
    if |items| > 1 {
      JoinExcludes(sep, items[1..], c);
    }
  }

  /** Number of occurrences of the character `c` in `s`. */
  function Count(s: string, c: char): (n: nat)
    ensures n <= |s|
    ensures n == 0 <==> c !in s
  {
    if s == [] then 0 else (if s[0] == c then 1 else 0) + Count(s[1..], c)
  }

  lemma {:induction false} CountAppend(a: string, b: string, c: char)
    ensures Count(a + b, c) == Count(a, c) + Count(b, c)
  {
    if a == [] {
      assert a + b == b;
    } else {
      assert (a + b)[1..] == a[1..] + b;
      CountAppend(a[1..], b, c);
    }
  }

  /** Every line followed by a newline: the text a sequence of `text += line + "\n"`
      statements produces. */
  function Unlines(lines: seq<string>): (text: string)
    ensures |text| >= |lines|
  {
    if lines == [] then "" else lines[0] + "\n" + Unlines(lines[1..])
  }

  /** Splits newline-terminated text into its lines; text that does not end
      in a newline yields its unterminated tail as a last line. */
  function SplitLines(text: string): seq<string>
    decreases |text|
  {
    if text == [] then []
    else
      var k := IndexOf(text, '\n');
      if k == |text| then [text]
      else [text[..k]] + SplitLines(text[k + 1..])
  }

  /** Index of the first `c` in `s`, or `|s|` when there is none. */
  function IndexOf(s: string, c: char): (k: nat)
    ensures k <= |s|
    ensures k < |s| ==> s[k] == c
    ensures forall i :: 0 <= i < k ==> s[i] != c
  {
    if s == [] then 0
    else if s[0] == c then 0
    else 1 + IndexOf(s[1..], c)
  }

  /** Splitting undoes `Unlines` as long as no line contains a newline. */
  lemma {:induction false} SplitUnlines(lines: seq<string>)
    requires forall i :: 0 <= i < |lines| ==> '\n' !in lines[i]
    ensures SplitLines(Unlines(lines)) == lines
  {
    if lines != [] {
      var text := Unlines(lines);
      var l := lines[0];
      var tail := Unlines(lines[1..]);
      assert text == l + ("\n" + tail);
      IndexOfPrefix(l, "\n" + tail, '\n');
      var k := IndexOf(text, '\n');
      assert k == |l| < |text|;
      assert text[..k] == l;
      assert text[k + 1..] == tail;
      assert SplitLines(text) == [l] + SplitLines(tail);
      SplitUnlines(lines[1..]);
      assert lines == [l] + lines[1..];
    }
  }

  lemma IndexOfPrefix(a: string, b: string, c: char)
    requires c !in a
    requires |b| > 0 && b[0] == c
    ensures IndexOf(a + b, c) == |a|
  {
    assert (a + b)[|a|] == c;
    assert forall i :: 0 <= i < |a| ==> (a + b)[i] == a[i];
  }

  /** The newlines of `Unlines(lines)` are exactly the line terminators. */
  lemma {:induction false} CountUnlines(lines: seq<string>)
    requires forall i :: 0 <= i < |lines| ==> '\n' !in lines[i]
    ensures Count(Unlines(lines), '\n') == |lines|
  {
    if lines != [] {
      var t := Unlines(lines[1..]);
      assert Unlines(lines) == lines[0] + ("\n" + t);
      CountAppend(lines[0], "\n" + t, '\n');
      CountAppend("\n", t, '\n');
      assert Count(lines[0], '\n') == 0;
      assert Count("\n", '\n') == 1;
      CountUnlines(lines[1..]);
    }
  }
}

=== FILE: wrappers.dfy ===
/** Failure-carrying datatypes shared by the model: an optional value and a
    success-or-error result. */
module Wrappers {

  datatype Option<+T> = None | Some(value: T)

  datatype Result<+R, +E> = Success(value: R) | Failure(error: E)
}
